=== FILE: README.md ===
# kin installer — a verified model of the install transaction

`kin` installs a packaged web app (a zip archive holding `manifest.webapp`,
or holding a nested `application.zip` that does) onto a device. The app id
is the manifest `origin` less its first six bytes (`app://`). The install
refuses an id already present in the registry file
`/data/local/webapps/webapps.json`. It allocates a local id one above the
largest existing one (floor 1) and builds the registry entry. Then it
creates `/data/local/webapps/<id>`, copies the payload and the manifest
into it, and rewrites the registry file last.

This project models that transaction in Dafny:

- `Text`: byte strings and Rust's `&s[i..]` with its char-boundary rule.
- `Json`: decoded JSON values and `as_i64`.
- `Layout`: the fixed paths and entry names.
- `Storage`: the device filesystem as a class. Its `FileSystem` has
  directories, files, the paths the OS refuses, and a log of effects.
- `Zip`: archives as name-to-bytes maps, and `check_app`.
- `Records`: the `Manifest` and `AppItem` records, the entry literal, and
  `serde_json::to_value`.
- `Resolver`: id derivation, the duplicate check, the max-`localId` loop.
  `Admit` is the pure specification of what the resolver decides.
- `Installer`: the library calls as parameters (`Libraries`), and
  `PlanInstall`, the pure specification of everything before the first
  write. It also has the imperative `Resolve` (with `Insert`), `Prepare`,
  `Commit` and `Install`, each proved against those specifications.

Every `expect`, `unwrap` and `panic!` the model keeps is an `Errors.Error`
value; the `unwrap`s it leaves out are listed under "Left out". Nothing is
executed; the model is checked by the Dafny verifier.

Two facts about the code that the model keeps:

- The registry is an unordered map. `serde_json::Map` keeps insertion order
  only with a Cargo feature that is not part of this model.
- An origin of exactly `app://` gives the empty id. The code does not
  reject it, and neither does the model.

## Model

| member | source | states |
|---|---|---|
| `Text.SliceFrom` | src/main.rs:95 | `&s[i..]` succeeds iff `i` is within `s` and on a char boundary; the result is the suffix after the first `i` bytes |
| `Text.IsCharBoundary` | src/main.rs:95 | the boundary test of `str::is_char_boundary`: index 0, the length, or an index whose byte, read as `i8`, is at least -0x40; any other index, beyond the length or on a UTF-8 continuation byte, is not a boundary |
| `Text.AsI8` | src/main.rs:95 | reading a byte as `i8` gives the value in -128..127 that is congruent to it modulo 256 |
| `Resolver.AppId` | src/main.rs:95 | the id is the origin less its first 6 bytes; `BadOrigin` iff the origin is shorter than 6 bytes or byte 6 is inside a character |
| `Resolver.AppIdOfAppOrigin` | src/main.rs:95 | `app://` followed by text yields that text as the id |
| `Zip.Normalize` | src/main.rs:58-72 | without `application.zip` the archive and path come back unchanged; with it, the inner archive and `/cache/kin_app.zip`, or `ScratchNotWritten` when the scratch file cannot be written and otherwise `InnerArchiveUnreadable` when the inner entry is not an archive |
| `Zip.CheckApp` | src/main.rs:58-72 | the imperative `check_app` returns what `Normalize` specifies; when the archive is nested and the scratch path is writable it writes the inner bytes to the scratch file, even if reopening them as an archive then fails; it changes nothing else |
| `Installer.ReadManifest` | src/main.rs:85-93 | `ManifestMissing` without a `manifest.webapp` entry, `ManifestUndecodable` when the entry does not decode; on success the raw bytes are exactly the entry's bytes and decode to the manifest |
| `Installer.LoadRegistry` | src/main.rs:98-103 | `RegistryUnreadable` when the registry file cannot be read, `RegistryUndecodable` when it does not decode; success gives the decoded registry |
| `Storage.FileSystem.Read` | src/main.rs:99-100 | reading a file succeeds iff it exists and gives its contents |
| `Json.AsI64` | src/main.rs:114 | `as_i64` is defined exactly on integral numbers within the i64 range |
| `Resolver.LocalIdOf` | src/main.rs:113-114 | a registry value has a local id iff it is an object whose `localId` is an i64 |
| `Resolver.MaxLocalId` | src/main.rs:111-118 | the loop fails with `MalformedEntry` iff some entry has no readable local id; otherwise it returns max(1, every local id), attained by an entry unless it is 1 |
| `Resolver.MaxFromIsFloorMax` | src/main.rs:111-118 | the specification fold is that maximum, whatever order it visits the entries in |
| `Resolver.FloorMaxOf` | src/main.rs:111-118 | the registry's floor maximum bounds every local id, is attained or is 1, and lies in 1..i64::MAX |
| `Records.BuildEntry` | src/main.rs:121-154 | the entry gives back its manifest (name, `oldVersion` = version, origin), carries the id, local id and install time, has `installOrigin` = origin, `manifestURL` = origin + `/manifest.webapp`, and every fixed field of a fresh packaged install |
| `Records.ToValue` | src/main.rs:157 | `to_value` succeeds iff the install time fits in u64; the result is an object whose keys are exactly the 29 field names, each holding its field's value: strings, numbers, booleans, arrays of strings, `null` for no redirects and `{}` for `additionalLanguages` |
| `Records.FieldOfKey` | src/main.rs:22-53 | every field key parses back as its field, so the 29 keys of the serialised entry are pairwise distinct |
| `Records.ValueOfFreshEntry` | src/main.rs:121-157 | the JSON a fresh install inserts is an object with every field key, holding the manifest's name and origin, the id, the allocated local id, `packaged` and `installed` |
| `Resolver.LocalIdOfEntry` | src/main.rs:157 | the `localId` an entry's JSON holds reads back through `as_object` and `as_i64` (lines 113-114) as the entry's local id |
| `Resolver.Admit` | src/main.rs:106-157 | a present id gives `AlreadyInstalled`; a new id over a registry with an unreadable entry gives `MalformedEntry`; success iff the id is new, every entry is well formed, `max + 1` does not overflow and the install time fits in u64; the resolver fails only with `AlreadyInstalled`, `MalformedEntry`, `LocalIdOverflow` or `EntryNotSerialisable` |
| `Resolver.AdmitInserts` | src/main.rs:121-157 | an admitted entry is built from the manifest; the registry gains exactly one key, the id, which holds the entry's JSON; every old key keeps its value |
| `Resolver.AdmitAllocates` | src/main.rs:110-136 | an admitted entry's local id is max(1, old maximum) + 1, above every old one and at least 2, reads back from the inserted JSON, and the registry stays well formed |
| `Resolver.AdmitAccepts` | src/main.rs:106-157 | when every check passes, the decision is the entry with local id `max + 1`, inserted as JSON under the id |
| `Resolver.FirstLocalIdIsTwo` | src/main.rs:111-136 | an empty registry gives local id 2 |
| `Resolver.SuccessiveLocalIds` | src/main.rs:111-136 | two installs in a row get consecutive local ids |
| `Resolver.AdmitKeepsLocalIdsDistinct` | src/main.rs:111-157 | if no two entries share a local id before an install, none do after it |
| `Installer.Resolve` | src/main.rs:105-118 | the duplicate check and the loop, followed by `Insert`, decide exactly what `Admit` specifies |
| `Installer.Insert` | src/main.rs:136-157 | after the loop, the overflow check on `max + 1`, the entry literal, `to_value` and the insert decide exactly what `Admit` specifies |
| `Layout.AppDir` | src/main.rs:160 | the app directory is the webapps root, the byte `/`, then the id |
| `Layout.CopiesInsideAppDir` | src/main.rs:162-164 | the payload copy and the manifest copy both lie inside the app directory |
| `Layout.ScratchIsNotRegistry` | src/main.rs:60 | the scratch file `/cache/kin_app.zip` is not the registry file |
| `Layout.PathsDistinct` | src/main.rs:160-171 | the payload copy, the manifest copy and the registry file are three different files; the scratch file is not the registry file or the app directory |
| `Storage.FileSystem.CreateDirectory` | src/main.rs:161 | `create_dir` succeeds iff nothing exists at the path and the OS allows it; it adds the directory and logs it |
| `Storage.FileSystem.Copy` | src/main.rs:162-163 | `copy` succeeds iff the source exists and the target is writable; the target then holds the source's bytes |
| `Storage.FileSystem.Write` | src/main.rs:164 | `write` succeeds iff the target is writable; the file then holds exactly the data |
| `Installer.Prepare` | src/main.rs:83-157 | lines 83-157 return what `PlanInstall` specifies; only the scratch file may change |
| `Installer.PlanInstallErrors` | src/main.rs:83-157 | the failures before the first write come in the program's order (archive, manifest, id, registry file, resolver): a `check_app` failure is reported as is, a missing manifest as `ManifestMissing`, an undecodable one as `ManifestUndecodable`, an origin without the `app://` prefix as `BadOrigin`, each before the registry file is consulted; an unreadable registry file only once the manifest and id are good; none is a failed write |
| `Installer.PlanInstallOutcome` | src/main.rs:83-157 | a plan installs the payload `check_app` chose, read a registry file that decodes, uses an id not in it, adds exactly that key with the entry's JSON and keeps every old value; the entry's origin is `app://`-length prefix + id, and the manifest bytes copied decode to the manifest the entry was built from; for a plain archive they are exactly its `manifest.webapp` bytes |
| `Installer.Commit` | src/main.rs:159-171 | the effects are a prefix of: create dir, copy payload, write manifest, write registry. Success iff all four happen, and then only those files change. No existing directory goes away, and only the app directory may be added. On failure the registry file is untouched, only the two copies may have changed, and the error names the write that failed: the one after the effects that happened (`AppDirNotCreated`, `PayloadNotCopied`, `ManifestNotWritten`, `RegistryNotWritten`) |
| `Installer.FillAppDir` | src/main.rs:162-171 | once the app directory exists: the effects are a prefix of copy payload, write manifest, write registry, and all three happen iff it succeeds; no directory changes; on failure the registry file is untouched, only the two copies may have changed, and the error names the write that failed |
| `Installer.CommitLogOrder` | src/main.rs:159-171 | the four writes are: create the app directory; copy the payload and write the manifest, both inside it and neither onto the registry file; write the registry file, last |
| `Installer.Install` | src/main.rs:83-172 | errors before the commit leave everything but the scratch file unchanged. The registry file is rewritten only on success, as the last effect. It then holds the registry with the new entry, and the app directory holds the payload and the manifest bytes from the archive. Once the plan succeeds, only the scratch file, the two copies, the registry file and the new app directory may change, whatever the outcome; every existing directory stays. A failure is a failed write exactly when the plan succeeded |
| `Installer.ReinstallRejected` | src/main.rs:106-108 | installing the same archive again against the registry the first install wrote fails with `AlreadyInstalled` |
| `Installer.NestedManifestRead` | src/main.rs:58-91 | with a nested `application.zip`, the manifest is the inner archive's, whatever the outer one holds, and the payload copied is the scratch file |
| `Installer.DemoInstall` | src/main.rs:95-157 | `app://demo.example` into an empty registry installs id `demo.example` with local id 2, kind `packaged`, state `installed`; the registry's one key holds an object with every field key, whose `id`, `origin`, `name`, `localId`, `kind` and `installState` hold those values |

## Left out

- Command-line handling and opening the input archive (src/main.rs:75-81): `Install` starts from the opened archive and its path.
- The zip container format and serde_json decoding and pretty-printing are not modelled. They are the function parameters of `Installer.Libraries`. Each decoder may fail, and each failure is an error value.
- The two panics of the max loop ("Failed to parse app item", and a missing or non-i64 `localId`) are one error, `MalformedEntry`. Which one fires first depends on the registry's iteration order.
- Registry key order: the registry is a `map`, so insertion order is not stated.
- `SystemTime::now()` is the parameter `now`, a natural number of milliseconds. A clock before the epoch, which makes `duration_since(...).unwrap()` panic, is not modelled.
- `max_local_id + 1` at i64::MAX is the error `LocalIdOverflow`, as in a debug build. The wrap-around of a release build is not modelled.
- Storage.FileSystem.Write: a full write is modelled. `check_app` calls `write`, not `write_all`, so a short write of the scratch file is possible and is not modelled.
- I/O failures are modelled only as paths the OS refuses (`denied`). Other failures are not modelled: the `unwrap`s on reading the inner archive entry (src/main.rs:62), flushing the scratch file (src/main.rs:65), reopening it (src/main.rs:67) and reading the manifest entry (src/main.rs:91), and a missing parent directory. `denied` is consulted only for writes: reading the registry file (src/main.rs:99-100) and reading the source of `fs::copy` (src/main.rs:162) succeed whenever the file exists, so a file the OS refuses to read is not modelled.
- `app_list.serialize(...).unwrap()` (src/main.rs:170) is the total function `encodeRegistry`: serialising a map of JSON values into a byte buffer is taken never to fail.
- Paths are compared as byte strings, with no normalisation. The empty id gives `/data/local/webapps/`, which the real `create_dir` refuses as existing; the model treats it as a new path. Ids containing `/` or `..` are not interpreted.
- `read_to_string` rejects a registry file that is not UTF-8. The model folds that case into `decodeRegistry`, so it is reported as `RegistryUndecodable`.
- Concurrent installs, interruption mid-way and the `println!` on success are not modelled.

=== FILE: errors.dfy ===
/**
 * Every way the install can abort. The program reports each of these with a
 * panic (`expect`, `unwrap` or `panic!`) and exits; here each is a value.
 */
module Errors {

  datatype Error =
    | ScratchNotWritten       // check_app: File::create / write of /cache/kin_app.zip failed
    | InnerArchiveUnreadable  // check_app: the nested application.zip is not a zip archive
    | ManifestMissing         // no manifest.webapp entry in the (normalised) archive
    | ManifestUndecodable     // manifest.webapp is not a JSON object with name, version, origin
    | BadOrigin               // &origin[6..] panics: origin shorter than 6 bytes or byte 6 inside a character
    | RegistryUnreadable      // webapps.json cannot be read
    | RegistryUndecodable     // webapps.json is not UTF-8 JSON holding an object
    | AlreadyInstalled        // the app id is already a key of the registry
    | MalformedEntry          // a registry value is not an object, or has no i64 localId
    | LocalIdOverflow         // max_local_id + 1 overflows i64
    | EntryNotSerialisable    // serde_json::to_value fails (installTime beyond u64)
    | AppDirNotCreated        // fs::create_dir of the app directory failed
    | PayloadNotCopied        // fs::copy of the payload archive failed
    | ManifestNotWritten      // fs::write of the manifest copy failed
    | RegistryNotWritten      // fs::write of webapps.json failed
  {
    /** A failure of one of the writes below the registry root. */
    predicate Writing() {
      AppDirNotCreated? || PayloadNotCopied? || ManifestNotWritten? || RegistryNotWritten?
    }
  }
}

=== FILE: installer.dfy ===
/**
 * The install transaction: normalise the archive, read the manifest,
 * resolve the app's identity against the registry, then create the app
 * directory, copy the payload, copy the manifest and, last of all, rewrite
 * the registry file.
 */
module Installer {
  import opened Wrappers
  import opened Errors
  import opened Text
  import opened Layout
  import opened Storage
  import opened Zip
  import opened Records
  import opened Resolver

  /** The library calls the installer makes and the model does not look
      inside: the zip reader, and serde_json decoding of the manifest and
      of the registry file and pretty-printing of the registry. */
  datatype Libraries = Libraries(
    openZip: Bytes -> Option<Archive>,
    decodeManifest: Bytes -> Option<Manifest>,
    decodeRegistry: Bytes -> Option<Registry>,
    encodeRegistry: Registry -> Bytes)

  /** Looks up `manifest.webapp` and decodes it; the raw bytes are kept, to
      be copied next to the payload unchanged. */
  function ReadManifest(zip: Archive, decode: Bytes -> Option<Manifest>): (r: Result<(Bytes, Manifest), Error>)
    ensures MANIFEST_NAME !in zip.entries ==> r == Err(ManifestMissing)
    ensures r.Ok? <==> MANIFEST_NAME in zip.entries && decode(zip.entries[MANIFEST_NAME]).Some?
    ensures r.Ok? ==> r.value.0 == zip.entries[MANIFEST_NAME] && decode(r.value.0) == Some(r.value.1)
    ensures r.Err? ==> r.error == if MANIFEST_NAME !in zip.entries then ManifestMissing else ManifestUndecodable
  {
    if MANIFEST_NAME !in zip.entries then Err(ManifestMissing)
    else
      var raw := zip.entries[MANIFEST_NAME];
      match decode(raw)
      case None => Err(ManifestUndecodable)
      case Some(m) => Ok((raw, m))
  }

  /** Reads and decodes the registry file (None: the file cannot be read). */
  function LoadRegistry(file: Option<Bytes>, decode: Bytes -> Option<Registry>): (r: Result<Registry, Error>)
    ensures file.None? ==> r == Err(RegistryUnreadable)
    ensures r.Ok? <==> file.Some? && decode(file.value).Some?
    ensures r.Ok? ==> decode(file.value) == Some(r.value)
    ensures r.Err? ==> r.error == if file.None? then RegistryUnreadable else RegistryUndecodable
  {
    match file
    case None => Err(RegistryUnreadable)
    case Some(text) =>
      match decode(text)
      case None => Err(RegistryUndecodable)
      case Some(reg) => Ok(reg)
  }

  /** Everything decided before the first write to the registry root: the
      payload file to copy, the manifest bytes, the app id and its entry. */
  datatype Plan = Plan(payload: Path, manifestRaw: Bytes, id: Bytes, admission: Admission)

  /** The install up to the insertion into the in-memory registry, as a
      function of the archive, whether the scratch file can be written,
      the registry file and the clock. */
  ghost function PlanInstall(zip: Archive, zipPath: Path, scratchWritable: bool,
                             registryFile: Option<Bytes>, lib: Libraries, now: nat): Result<Plan, Error>
  {
    var normalised :- Normalize(zip, zipPath, scratchWritable, lib.openZip);
    var manifest :- ReadManifest(normalised.0, lib.decodeManifest);
    var id :- AppId(manifest.1.origin);
    var reg :- LoadRegistry(registryFile, lib.decodeRegistry);
    var admission :- Admit(id, manifest.1, reg, now);
    Ok(Plan(normalised.1, manifest.0, id, admission))
  }

  /**
   * The checks before the first write come in the program's order: the
   * archive, the manifest, the id, the registry file, the resolver; none of
   * them is a failed write.
   */
  lemma PlanInstallErrors(zip: Archive, zipPath: Path, scratchWritable: bool,
                          registryFile: Option<Bytes>, lib: Libraries, now: nat)
    ensures var r := PlanInstall(zip, zipPath, scratchWritable, registryFile, lib, now);
            r.Err? ==> !r.error.Writing()
    ensures var n := Normalize(zip, zipPath, scratchWritable, lib.openZip);
            n.Err? ==> PlanInstall(zip, zipPath, scratchWritable, registryFile, lib, now) == Err(n.error)
    ensures var n := Normalize(zip, zipPath, scratchWritable, lib.openZip);
            n.Ok? && MANIFEST_NAME !in n.value.0.entries ==>
            PlanInstall(zip, zipPath, scratchWritable, registryFile, lib, now) == Err(ManifestMissing)
    ensures var n := Normalize(zip, zipPath, scratchWritable, lib.openZip);
            && n.Ok? && ReadManifest(n.value.0, lib.decodeManifest).Ok?
            && AppId(ReadManifest(n.value.0, lib.decodeManifest).value.1.origin).Ok?
            && registryFile.None?
            ==> PlanInstall(zip, zipPath, scratchWritable, registryFile, lib, now) == Err(RegistryUnreadable)
    ensures var n := Normalize(zip, zipPath, scratchWritable, lib.openZip);
            && n.Ok? && MANIFEST_NAME in n.value.0.entries
            && lib.decodeManifest(n.value.0.entries[MANIFEST_NAME]).None?
            ==> PlanInstall(zip, zipPath, scratchWritable, registryFile, lib, now) == Err(ManifestUndecodable)
    ensures var n := Normalize(zip, zipPath, scratchWritable, lib.openZip);
            && n.Ok? && ReadManifest(n.value.0, lib.decodeManifest).Ok?
            && AppId(ReadManifest(n.value.0, lib.decodeManifest).value.1.origin).Err?
            ==> PlanInstall(zip, zipPath, scratchWritable, registryFile, lib, now) == Err(BadOrigin)
  {
  }

  /** A plan inserts an entry built from the manifest it copies, under an id
      new to the registry it read, and installs the payload `check_app`
      chose. */
  lemma PlanInstallOutcome(zip: Archive, zipPath: Path, scratchWritable: bool,
                           registryFile: Option<Bytes>, lib: Libraries, now: nat)
    ensures var r := PlanInstall(zip, zipPath, scratchWritable, registryFile, lib, now);
            r.Ok? ==> r.value.payload == if IsNested(zip) then SCRATCH_PATH else zipPath
    ensures var r := PlanInstall(zip, zipPath, scratchWritable, registryFile, lib, now);
            r.Ok? ==> registryFile.Some? && lib.decodeRegistry(registryFile.value).Some?
    ensures var r := PlanInstall(zip, zipPath, scratchWritable, registryFile, lib, now);
            r.Ok? ==> var reg := lib.decodeRegistry(registryFile.value).value;
                      var a := r.value.admission;
                      && r.value.id !in reg && a.registry.Keys == reg.Keys + {r.value.id}
                      && (forall k :: k in reg ==> a.registry[k] == reg[k])
                      && Some(a.registry[r.value.id]) == ToValue(a.entry)
    ensures var r := PlanInstall(zip, zipPath, scratchWritable, registryFile, lib, now);
            r.Ok? ==> var e := r.value.admission.entry;
                      && e.id == r.value.id
                      && |e.origin| >= SCHEME_LENGTH && e.origin == e.origin[..SCHEME_LENGTH] + r.value.id
                      && lib.decodeManifest(r.value.manifestRaw) == Some(ManifestOf(e))
    ensures var r := PlanInstall(zip, zipPath, scratchWritable, registryFile, lib, now);
            r.Ok? && !IsNested(zip) ==> MANIFEST_NAME in zip.entries && r.value.manifestRaw == zip.entries[MANIFEST_NAME]
  {
  }

  /** The four writes of a successful install, in the order they happen. */
  function CommitLog(id: Bytes, payload: Path, manifestRaw: Bytes, registryText: Bytes): seq<Effect> {
    [ CreateDir(AppDir(id)),
      CopyFile(payload, PayloadCopy(id)),
      WriteFile(ManifestCopy(id), manifestRaw),
      WriteFile(WEBAPPS_LIST_PATH, registryText) ]
  }

  /**
   * The app directory is created first, then two files are written inside
   * it, and the registry file is written last; neither earlier file write
   * lands on the registry file. (The app directory of the id
   * `webapps.json` is the registry file's own path; creating it then
   * fails, as `Commit` states, and nothing is overwritten.)
   */
  lemma CommitLogOrder(id: Bytes, payload: Path, manifestRaw: Bytes, registryText: Bytes)
    ensures var log := CommitLog(id, payload, manifestRaw, registryText);
            && |log| == 4 && log[0] == CreateDir(AppDir(id))
            && (forall i :: 1 <= i < 3 ==> Inside(AppDir(id), log[i].Target()) && log[i].Target() != WEBAPPS_LIST_PATH)
            && log[3] == WriteFile(WEBAPPS_LIST_PATH, registryText)
  {
    PathsDistinct(id);
    CopiesInsideAppDir(id);
  }

  function PlanLog(p: Plan, lib: Libraries): seq<Effect> {
    CommitLog(p.id, p.payload, p.manifestRaw, lib.encodeRegistry(p.admission.registry))
  }

  /**
   * Creates `<root>/<id>`, copies the payload into it as `application.zip`,
   * writes the manifest bytes into it as `manifest.webapp`, then overwrites
   * the registry file; it stops at the first write that fails.
   */
  method Commit(fs: FileSystem, id: Bytes, payload: Path, manifestRaw: Bytes, registryText: Bytes)
    returns (r: Result<Bytes, Error>)
    requires fs.Valid()
    modifies fs
    ensures fs.Valid()
    ensures old(fs.log) <= fs.log <= old(fs.log) + CommitLog(id, payload, manifestRaw, registryText)
    ensures r.Ok? <==> fs.log == old(fs.log) + CommitLog(id, payload, manifestRaw, registryText)
    ensures r.Ok? ==> r.value == id
    ensures r == Err(AppDirNotCreated) <==> !old(fs.Writable(AppDir(id))) || AppDir(id) in old(fs.files)
    ensures old(fs.dirs) <= fs.dirs <= old(fs.dirs) + {AppDir(id)}
    ensures r.Ok? ==> AppDir(id) in fs.dirs && payload in old(fs.files)
    ensures r.Ok? ==> fs.files == old(fs.files)[PayloadCopy(id) := old(fs.files)[payload]]
                                               [ManifestCopy(id) := manifestRaw]
                                               [WEBAPPS_LIST_PATH := registryText]
    ensures r.Err? ==> fs.files - {PayloadCopy(id), ManifestCopy(id)} == old(fs.files) - {PayloadCopy(id), ManifestCopy(id)}
    ensures r.Err? ==> fs.Read(WEBAPPS_LIST_PATH) == old(fs.Read(WEBAPPS_LIST_PATH))
    ensures r.Err? ==> r.error.Writing()
                       && r.error == [AppDirNotCreated, PayloadNotCopied, ManifestNotWritten, RegistryNotWritten][|fs.log| - |old(fs.log)|]
  {
    var ok := fs.CreateDirectory(AppDir(id));
    if !ok {
      return Err(AppDirNotCreated);
    }
    r := FillAppDir(fs, id, payload, manifestRaw, registryText);
    assert old(fs.log) + CommitLog(id, payload, manifestRaw, registryText)
        == old(fs.log) + [CreateDir(AppDir(id))] + CommitLog(id, payload, manifestRaw, registryText)[1..];
  }

  /**
   * The three file writes of `Commit`, once the app directory exists: the
   * payload copy, the manifest copy and the registry file, stopping at the
   * first that fails.
   */
  method FillAppDir(fs: FileSystem, id: Bytes, payload: Path, manifestRaw: Bytes, registryText: Bytes)
    returns (r: Result<Bytes, Error>)
    requires fs.Valid()
    modifies fs
    ensures fs.Valid()
    ensures fs.dirs == old(fs.dirs)
    ensures old(fs.log) <= fs.log <= old(fs.log) + CommitLog(id, payload, manifestRaw, registryText)[1..]
    ensures r.Ok? <==> fs.log == old(fs.log) + CommitLog(id, payload, manifestRaw, registryText)[1..]
    ensures r.Ok? ==> r.value == id && payload in old(fs.files)
    ensures r.Ok? ==> fs.files == old(fs.files)[PayloadCopy(id) := old(fs.files)[payload]]
                                               [ManifestCopy(id) := manifestRaw]
                                               [WEBAPPS_LIST_PATH := registryText]
    ensures r.Err? ==> fs.files - {PayloadCopy(id), ManifestCopy(id)} == old(fs.files) - {PayloadCopy(id), ManifestCopy(id)}
    ensures r.Err? ==> fs.Read(WEBAPPS_LIST_PATH) == old(fs.Read(WEBAPPS_LIST_PATH))
    ensures r.Err? ==> r.error == [PayloadNotCopied, ManifestNotWritten, RegistryNotWritten][|fs.log| - |old(fs.log)|]
  {
    PathsDistinct(id);
    var dir := AppDir(id);
    var ok := fs.Copy(payload, dir + SEPARATOR + PAYLOAD_NAME);
    if !ok {
      return Err(PayloadNotCopied);
    }
    ok := fs.Write(dir + SEPARATOR + MANIFEST_NAME, manifestRaw);
    if !ok {
      assert |fs.log| - |old(fs.log)| == 1;
      return Err(ManifestNotWritten);
    }
    ok := fs.Write(WEBAPPS_LIST_PATH, registryText);
    if !ok {
      assert |fs.log| - |old(fs.log)| == 2;
      return Err(RegistryNotWritten);
    }
    return Ok(id);
  }

  /**
   * The resolver as the program runs it: the duplicate check, the loop for
   * the largest local id, the entry literal and the insertion into the
   * in-memory registry. It decides exactly what Admit specifies.
   */
  method Resolve(id: Bytes, m: Manifest, reg: Registry, now: nat) returns (r: Result<Admission, Error>)
    ensures r == Admit(id, m, reg, now)
  {
    var appList := reg;
    if id in appList {
      return Err(AlreadyInstalled);
    }
    var maxLocalId := MaxLocalId(appList);
    if maxLocalId.Err? {
      return Err(maxLocalId.error);
    }
    r := Insert(id, m, appList, now, maxLocalId.value);
  }

  /**
   * The tail of the resolver, once the loop has found the largest local id:
   * the overflow check on `max + 1`, the entry literal, its conversion to
   * JSON and the insertion under the app id.
   */
  method Insert(id: Bytes, m: Manifest, reg: Registry, now: nat, maxLocalId: int)
    returns (r: Result<Admission, Error>)
    requires id !in reg && WellFormed(reg) && maxLocalId == FloorMax(reg)
    ensures r == Admit(id, m, reg, now)
  {
    if maxLocalId == Json.I64_MAX {
      return Err(LocalIdOverflow);
    }
    var item := BuildEntry(m, id, maxLocalId + 1, now);
    var value := ToValue(item);
    if value.None? {
      return Err(EntryNotSerialisable);
    }
    FloorMaxOf(reg);
    AdmitAccepts(id, m, reg, now, maxLocalId);
    return Ok(Admission(item, reg[id := value.value]));
  }

  /**
   * Everything before the first write to the registry root: check_app, the
   * manifest, the id, the registry file and the resolver. Only the scratch
   * file may change.
   */
  method Prepare(fs: FileSystem, zip: Archive, zipPath: Path, lib: Libraries, now: nat)
    returns (r: Result<Plan, Error>)
    requires fs.Valid()
    modifies fs
    ensures fs.Valid()
    ensures r == PlanInstall(zip, zipPath, old(fs.Writable(SCRATCH_PATH)), old(fs.Read(WEBAPPS_LIST_PATH)), lib, now)
    ensures fs.dirs == old(fs.dirs)
    ensures fs.log == old(fs.log) + ScratchLog(zip, old(fs.Writable(SCRATCH_PATH)))
    ensures fs.files == if ScratchLog(zip, old(fs.Writable(SCRATCH_PATH))) == [] then old(fs.files)
                        else old(fs.files)[SCRATCH_PATH := zip.entries[PAYLOAD_NAME]]
    ensures r.Ok? && IsNested(zip) ==> r.value.payload == SCRATCH_PATH
    ensures r.Ok? && !IsNested(zip) ==> r.value.payload == zipPath
  {
    ScratchIsNotRegistry();
    var normalised := CheckApp(fs, zip, zipPath, lib.openZip);
    if normalised.Err? {
      return Err(normalised.error);
    }
    var (appZip, appZipPath) := normalised.value;

    var manifest := ReadManifest(appZip, lib.decodeManifest);
    if manifest.Err? {
      return Err(manifest.error);
    }
    var (manifestRaw, m) := manifest.value;

    var appId := AppId(m.origin);
    if appId.Err? {
      return Err(appId.error);
    }
    var id := appId.value;

    var loaded := LoadRegistry(fs.Read(WEBAPPS_LIST_PATH), lib.decodeRegistry);
    if loaded.Err? {
      return Err(loaded.error);
    }

    var admission := Resolve(id, m, loaded.value, now);
    if admission.Err? {
      return Err(admission.error);
    }
    return Ok(Plan(appZipPath, manifestRaw, id, admission.value));
  }

  /**
   * The whole install of archive `zip`, read from `zipPath`, at time `now`.
   * It does what PlanInstall decides and then commits: on any failure
   * before the commit only the scratch file may have changed; the registry
   * file is rewritten only by a successful install, and as its last write.
   */
  method Install(fs: FileSystem, zip: Archive, zipPath: Path, lib: Libraries, now: nat)
    returns (r: Result<Bytes, Error>)
    requires fs.Valid()
    modifies fs
    ensures fs.Valid()
    ensures var plan := PlanInstall(zip, zipPath, old(fs.Writable(SCRATCH_PATH)), old(fs.Read(WEBAPPS_LIST_PATH)), lib, now);
            var staged := old(fs.log) + ScratchLog(zip, old(fs.Writable(SCRATCH_PATH)));
            && (plan.Err? ==> r == Err(plan.error) && fs.log == staged && fs.dirs == old(fs.dirs)
                              && fs.files - {SCRATCH_PATH} == old(fs.files) - {SCRATCH_PATH})
            && (plan.Ok? ==> staged <= fs.log <= staged + PlanLog(plan.value, lib))
            && (r.Ok? <==> plan.Ok? && fs.log == staged + PlanLog(plan.value, lib))
            && (r.Ok? ==> r.value == plan.value.id
                          && fs.Read(WEBAPPS_LIST_PATH) == Some(lib.encodeRegistry(plan.value.admission.registry))
                          && fs.Read(ManifestCopy(r.value)) == Some(plan.value.manifestRaw))
    ensures r.Err? ==> fs.Read(WEBAPPS_LIST_PATH) == old(fs.Read(WEBAPPS_LIST_PATH))
    ensures r.Ok? ==> AppDir(r.value) in fs.dirs
    ensures r.Ok? && IsNested(zip) ==> fs.Read(PayloadCopy(r.value)) == Some(zip.entries[PAYLOAD_NAME])
    ensures r.Ok? && !IsNested(zip) ==> fs.Read(PayloadCopy(r.value)) == old(fs.Read(zipPath)) != None
    ensures var plan := PlanInstall(zip, zipPath, old(fs.Writable(SCRATCH_PATH)), old(fs.Read(WEBAPPS_LIST_PATH)), lib, now);
            plan.Ok? ==> && old(fs.dirs) <= fs.dirs <= old(fs.dirs) + {AppDir(plan.value.id)}
                         && forall q :: q !in {SCRATCH_PATH, PayloadCopy(plan.value.id), ManifestCopy(plan.value.id), WEBAPPS_LIST_PATH}
                                        ==> fs.Read(q) == old(fs.Read(q))
    ensures var plan := PlanInstall(zip, zipPath, old(fs.Writable(SCRATCH_PATH)), old(fs.Read(WEBAPPS_LIST_PATH)), lib, now);
            r.Err? ==> (r.error.Writing() <==> plan.Ok?)
  {
    ScratchIsNotRegistry();
    ghost var plain := old(fs.files);
    var plan := Prepare(fs, zip, zipPath, lib, now);
    if plan.Err? {
      PlanInstallErrors(zip, zipPath, old(fs.Writable(SCRATCH_PATH)), old(fs.Read(WEBAPPS_LIST_PATH)), lib, now);
      return Err(plan.error);
    }
    var p := plan.value;
    PathsDistinct(p.id);
    ghost var staged := fs.files;
    r := Commit(fs, p.id, p.payload, p.manifestRaw, lib.encodeRegistry(p.admission.registry));
    ghost var copies := {PayloadCopy(p.id), ManifestCopy(p.id)};
    forall q | q !in {SCRATCH_PATH, PayloadCopy(p.id), ManifestCopy(p.id), WEBAPPS_LIST_PATH}
      ensures fs.Read(q) == old(fs.Read(q))
    {
      assert (q in staged <==> q in plain) && (q in plain ==> staged[q] == plain[q]);
      if r.Err? {
        assert q in fs.files - copies <==> q in staged - copies;
      }
    }
  }

  /**
   * Installing the same archive again, against the registry the first
   * install wrote, is refused as a duplicate (given that the JSON codec
   * reads back what it wrote).
   */
  lemma ReinstallRejected(zip: Archive, zipPath: Path, scratchWritable: bool, registryFile: Option<Bytes>,
                          lib: Libraries, now: nat, later: nat)
    requires PlanInstall(zip, zipPath, scratchWritable, registryFile, lib, now).Ok?
    requires var reg := PlanInstall(zip, zipPath, scratchWritable, registryFile, lib, now).value.admission.registry;
             lib.decodeRegistry(lib.encodeRegistry(reg)) == Some(reg)
    ensures var reg := PlanInstall(zip, zipPath, scratchWritable, registryFile, lib, now).value.admission.registry;
            PlanInstall(zip, zipPath, scratchWritable, Some(lib.encodeRegistry(reg)), lib, later) == Err(AlreadyInstalled)
  {
  }

  /**
   * When the archive nests `application.zip`, the manifest is the inner
   * archive's, whatever the outer archive holds, and the payload installed
   * is the scratch copy of the inner archive.
   */
  lemma NestedManifestRead(zip: Archive, zipPath: Path, registryFile: Option<Bytes>,
                           lib: Libraries, now: nat, inner: Archive)
    requires IsNested(zip) && lib.openZip(zip.entries[PAYLOAD_NAME]) == Some(inner)
    ensures MANIFEST_NAME !in inner.entries ==> PlanInstall(zip, zipPath, true, registryFile, lib, now) == Err(ManifestMissing)
    ensures var p := PlanInstall(zip, zipPath, true, registryFile, lib, now);
            p.Ok? ==> p.value.payload == SCRATCH_PATH && MANIFEST_NAME in inner.entries
                      && p.value.manifestRaw == inner.entries[MANIFEST_NAME]
  {
  }

  /** Example: `app://demo.example` into an empty registry. The
      registry gains the one key `demo.example`, holding an object with every
      field key; among them the name, local id 2 and the packaged, installed
      state. */
  lemma DemoInstall(lib: Libraries, now: nat)
    requires now <= Json.U64_MAX
    ensures var origin := Ascii("app://demo.example");
            var m := Manifest(Ascii("Demo"), Ascii("1.0"), origin);
            && AppId(origin) == Ok(Ascii("demo.example"))
            && Admit(Ascii("demo.example"), m, map[], now).Ok?
            && var a := Admit(Ascii("demo.example"), m, map[], now).value;
            && a.registry.Keys == {Ascii("demo.example")}
            && a.entry.localId == 2 && a.entry.name == Ascii("Demo")
            && a.entry.kind == PACKAGED && a.entry.installState == INSTALLED
            && var v := a.registry[Ascii("demo.example")];
            && v.Obj? && v.fields.Keys == FieldKeys()
            && v.fields[Key(Id)] == Json.Str(Ascii("demo.example"))
            && v.fields[Key(Origin)] == Json.Str(origin)
            && v.fields[Key(Name)] == Json.Str(Ascii("Demo"))
            && v.fields[Key(LocalId)] == Json.Int(2)
            && v.fields[Key(Kind)] == Json.Str(PACKAGED)
            && v.fields[Key(InstallState)] == Json.Str(INSTALLED)
  {
    var id := Ascii("demo.example");
    var m := Manifest(Ascii("Demo"), Ascii("1.0"), Ascii("app://demo.example"));
    assert Ascii("app://demo.example") == Ascii("app://") + id;
    AppIdOfAppOrigin(id);
    FirstLocalIdIsTwo(id, m, now);
    AdmitInserts(id, m, map[], now);
    var a := Admit(id, m, map[], now).value;
    ValueOfFreshEntry(m, id, 2, now, a.registry[id]);
  }
}

=== FILE: json.dfy ===
/** Decoded JSON values, as serde_json's `Value` holds them. */
module Json {
  import opened Wrappers
  import opened Text

  const I64_MIN: int := -0x8000_0000_0000_0000
  const I64_MAX: int := 0x7FFF_FFFF_FFFF_FFFF
  const U64_MAX: int := 0xFFFF_FFFF_FFFF_FFFF

  /** `Int` is an integral JSON number (serde keeps those in i64 or u64);
      `Frac` is a number with a fraction or exponent, whose value the model
      does not need. */
  datatype Value =
    | Null
    | Bool(b: bool)
    | Int(n: int)
    | Frac
    | Str(s: Bytes)
    | Arr(items: seq<Value>)
    | Obj(fields: map<Bytes, Value>)

  /** serde_json's `Value::as_i64`: an integral number that fits in an i64. */
  function AsI64(v: Value): (r: Option<int>)
    ensures r.Some? <==> v.Int? && I64_MIN <= v.n <= I64_MAX
    ensures r.Some? ==> r.value == v.n
  {
    if v.Int? && I64_MIN <= v.n <= I64_MAX then Some(v.n) else None
  }
}

=== FILE: layout.dfy ===
/** The fixed paths and archive entry names of the installer. */
module Layout {
  import opened Text

  type Path = Bytes

  /** Root of the app registry; every app gets a directory below it. */
  const WEBAPPS_ROOT: Path := Ascii("/data/local/webapps")
  /** The registry file, a JSON object keyed by app id. */
  const WEBAPPS_LIST_PATH: Path := Ascii("/data/local/webapps/webapps.json")
  /** Where a nested payload archive is unpacked to. */
  const SCRATCH_PATH: Path := Ascii("/cache/kin_app.zip")

  /** Name of the nested payload entry and of the payload copy. */
  const PAYLOAD_NAME: Bytes := Ascii("application.zip")
  /** Name of the manifest entry and of the manifest copy. */
  const MANIFEST_NAME: Bytes := Ascii("manifest.webapp")

  const SEPARATOR: Bytes := Ascii("/")

  /** `webapps_root + "/" + app_id` */
  function AppDir(id: Bytes): (p: Path)
    ensures |p| == |WEBAPPS_ROOT| + 1 + |id|
    ensures p[..|WEBAPPS_ROOT|] == WEBAPPS_ROOT && p[|WEBAPPS_ROOT| + 1..] == id
    ensures p[|WEBAPPS_ROOT|] == '/' as int
  {
    WEBAPPS_ROOT + SEPARATOR + id
  }

  /** `p` names something inside directory `dir`. */
  predicate Inside(dir: Path, p: Path) {
    |p| > |dir| + 1 && p[..|dir| + 1] == dir + SEPARATOR
  }

  function PayloadCopy(id: Bytes): Path {
    AppDir(id) + SEPARATOR + PAYLOAD_NAME
  }

  function ManifestCopy(id: Bytes): Path {
    AppDir(id) + SEPARATOR + MANIFEST_NAME
  }

  /** Both copies go inside the app directory. */
  lemma CopiesInsideAppDir(id: Bytes)
    ensures Inside(AppDir(id), PayloadCopy(id)) && Inside(AppDir(id), ManifestCopy(id))
  {
    var d := AppDir(id);
    assert PayloadCopy(id)[..|d| + 1] == d + SEPARATOR;
    assert ManifestCopy(id)[..|d| + 1] == d + SEPARATOR;
  }

  /** Unpacking a nested archive never touches the registry file. */
  lemma ScratchIsNotRegistry()
    ensures SCRATCH_PATH != WEBAPPS_LIST_PATH
  {
    assert SCRATCH_PATH[1] != WEBAPPS_LIST_PATH[1];
  }

  /** The three files an install writes are three different files, and the
      scratch file is none of them. */
  lemma PathsDistinct(id: Bytes)
    ensures PayloadCopy(id) != ManifestCopy(id)
    ensures PayloadCopy(id) != WEBAPPS_LIST_PATH
    ensures ManifestCopy(id) != WEBAPPS_LIST_PATH
    ensures SCRATCH_PATH != WEBAPPS_LIST_PATH
    ensures AppDir(id) != SCRATCH_PATH
  {
    ScratchIsNotRegistry();
    var d := AppDir(id);
    assert PayloadCopy(id)[|d| + 1] == PAYLOAD_NAME[0] != MANIFEST_NAME[0] == ManifestCopy(id)[|d| + 1];
    LastByteDiffers(PayloadCopy(id), WEBAPPS_LIST_PATH);
    LastByteDiffers(ManifestCopy(id), WEBAPPS_LIST_PATH);
    assert AppDir(id)[1] == WEBAPPS_ROOT[1] != SCRATCH_PATH[1];
  }
}

=== FILE: records.dfy ===
/** The two records the installer reads and writes: the app's manifest and
    the registry entry built for it. */
module Records {
  import opened Wrappers
  import opened Text
  import opened Json
  import opened Layout

  /** The fields of `manifest.webapp` the installer uses. */
  datatype Manifest = Manifest(name: Bytes, version: Bytes, origin: Bytes)

  /** An empty JSON object, kept as a placeholder. */
  datatype AdditionalLanguage = AdditionalLanguage

  /** One registry entry; the field names are the JSON keys. */
  datatype AppItem = AppItem(
    origin: Bytes,
    installOrigin: Bytes,
    manifestURL: Bytes,
    appStatus: int,
    receipts: seq<Bytes>,
    kind: Bytes,
    installTime: nat,
    installState: Bytes,
    removable: bool,
    id: Bytes,
    basePath: Bytes,
    localId: int,
    sideloaded: bool,
    enabled: bool,
    blockedStatus: int,
    name: Bytes,
    csp: Bytes,
    role: Bytes,
    redirects: Option<Bytes>,
    widgetPages: seq<Bytes>,
    userAgentInfo: Bytes,
    installerAppId: int,
    installerIsBrowser: bool,
    storeId: Bytes,
    storeVersion: int,
    downloading: bool,
    readyToApplyDownload: bool,
    oldVersion: Bytes,
    additionalLanguages: AdditionalLanguage)

  const INSTALLED_STATUS := 3
  const PACKAGED: Bytes := Ascii("packaged")
  const INSTALLED: Bytes := Ascii("installed")
  // the key `localId`, which is `Key(LocalId)`
  const LOCAL_ID_KEY: Bytes := Ascii("localId")

  /** The fields every freshly installed packaged app has, whatever its
      manifest: installed, packaged, removable, enabled, not blocked, not
      sideloaded, under the registry root, and every optional field empty. */
  predicate IsFreshPackagedInstall(e: AppItem) {
    && e.appStatus == INSTALLED_STATUS && e.kind == PACKAGED && e.installState == INSTALLED
    && e.removable && !e.sideloaded && e.enabled && e.blockedStatus == 0
    && e.basePath == WEBAPPS_ROOT && e.receipts == [] && e.widgetPages == []
    && e.csp == [] && e.role == [] && e.redirects == None && e.userAgentInfo == []
    && e.installerAppId == 0 && !e.installerIsBrowser && e.storeId == [] && e.storeVersion == 0
    && !e.downloading && !e.readyToApplyDownload
  }

  /** The manifest an entry was built from: its name, its version (kept as
      `oldVersion`) and its origin. */
  function ManifestOf(e: AppItem): Manifest {
    Manifest(e.name, e.oldVersion, e.origin)
  }

  /** The `AppItem` literal of the installer, for app `id` with local id
      `localId`, installed at `installTime` milliseconds since the epoch. */
  function BuildEntry(m: Manifest, id: Bytes, localId: int, installTime: nat): (e: AppItem)
    ensures ManifestOf(e) == m
    ensures e.id == id && e.localId == localId && e.installTime == installTime
    ensures e.installOrigin == e.origin
    ensures e.manifestURL == e.origin + SEPARATOR + MANIFEST_NAME
    ensures IsFreshPackagedInstall(e)
  {
    AppItem(
      origin := m.origin,
      installOrigin := m.origin,
      manifestURL := m.origin + Ascii("/manifest.webapp"),
      appStatus := INSTALLED_STATUS,
      receipts := [],
      kind := PACKAGED,
      installTime := installTime,
      installState := INSTALLED,
      removable := true,
      id := id,
      basePath := WEBAPPS_ROOT,
      localId := localId,
      sideloaded := false,
      enabled := true,
      blockedStatus := 0,
      name := m.name,
      csp := [],
      role := [],
      redirects := None,
      widgetPages := [],
      userAgentInfo := [],
      installerAppId := 0,
      installerIsBrowser := false,
      storeId := [],
      storeVersion := 0,
      downloading := false,
      readyToApplyDownload := false,
      oldVersion := m.version,
      additionalLanguages := AdditionalLanguage)
  }

  /** The fields of an entry, in declaration order. */
  datatype Field =
    Origin | InstallOrigin | ManifestURL | AppStatus | Receipts | Kind
    | InstallTime | InstallState | Removable | Id | BasePath | LocalId
    | Sideloaded | Enabled | BlockedStatus | Name | Csp | Role
    | Redirects | WidgetPages | UserAgentInfo | InstallerAppId | InstallerIsBrowser | StoreId
    | StoreVersion | Downloading | ReadyToApplyDownload | OldVersion | AdditionalLanguages

  /** A field's name in the Rust struct, which is already camel case. */
  function FieldName(f: Field): string {
    match f
    case Origin => "origin"
    case InstallOrigin => "installOrigin"
    case ManifestURL => "manifestURL"
    case AppStatus => "appStatus"
    case Receipts => "receipts"
    case Kind => "kind"
    case InstallTime => "installTime"
    case InstallState => "installState"
    case Removable => "removable"
    case Id => "id"
    case BasePath => "basePath"
    case LocalId => "localId"
    case Sideloaded => "sideloaded"
    case Enabled => "enabled"
    case BlockedStatus => "blockedStatus"
    case Name => "name"
    case Csp => "csp"
    case Role => "role"
    case Redirects => "redirects"
    case WidgetPages => "widgetPages"
    case UserAgentInfo => "userAgentInfo"
    case InstallerAppId => "installerAppId"
    case InstallerIsBrowser => "installerIsBrowser"
    case StoreId => "storeId"
    case StoreVersion => "storeVersion"
    case Downloading => "downloading"
    case ReadyToApplyDownload => "readyToApplyDownload"
    case OldVersion => "oldVersion"
    case AdditionalLanguages => "additionalLanguages"
  }

  /** The JSON key serde gives a field: its name, unchanged. */
  function Key(f: Field): Bytes {
    Ascii(FieldName(f))
  }

  /** The length and the bytes of the last three characters: different for
      every two field names. */
  function NameTag(s: string): int {
    if |s| < 3 then |s|
    else ((|s| * 0x100 + ByteOf(s[|s| - 1])) * 0x100 + ByteOf(s[|s| - 2])) * 0x100 + ByteOf(s[|s| - 3])
  }

  function TagOf(f: Field): int {
    match f
    case Origin => 0x66E6967
    case InstallOrigin => 0xD6E6967
    case ManifestURL => 0xB4C5255
    case AppStatus => 0x9737574
    case Receipts => 0x8737470
    case Kind => 0x4646E69
    case InstallTime => 0xB656D69
    case InstallState => 0xC657461
    case Removable => 0x9656C62
    case Id => 0x2
    case BasePath => 0x8687461
    case LocalId => 0x764496C
    case Sideloaded => 0xA646564
    case Enabled => 0x764656C
    case BlockedStatus => 0xD737574
    case Name => 0x4656D61
    case Csp => 0x3707363
    case Role => 0x4656C6F
    case Redirects => 0x9737463
    case WidgetPages => 0xB736567
    case UserAgentInfo => 0xD6F666E
    case InstallerAppId => 0xE644970
    case InstallerIsBrowser => 0x12726573
    case StoreId => 0x7644965
    case StoreVersion => 0xC6E6F69
    case Downloading => 0xB676E69
    case ReadyToApplyDownload => 0x1464616F
    case OldVersion => 0xA6E6F69
    case AdditionalLanguages => 0x13736567
  }

  /** The field a tag belongs to, if any. */
  function Tagged(t: int): Option<Field> {
    if t == 0x66E6967 then Some(Origin)
    else if t == 0xD6E6967 then Some(InstallOrigin)
    else if t == 0xB4C5255 then Some(ManifestURL)
    else if t == 0x9737574 then Some(AppStatus)
    else if t == 0x8737470 then Some(Receipts)
    else if t == 0x4646E69 then Some(Kind)
    else if t == 0xB656D69 then Some(InstallTime)
    else if t == 0xC657461 then Some(InstallState)
    else if t == 0x9656C62 then Some(Removable)
    else if t == 0x2 then Some(Id)
    else if t == 0x8687461 then Some(BasePath)
    else if t == 0x764496C then Some(LocalId)
    else if t == 0xA646564 then Some(Sideloaded)
    else if t == 0x764656C then Some(Enabled)
    else if t == 0xD737574 then Some(BlockedStatus)
    else if t == 0x4656D61 then Some(Name)
    else if t == 0x3707363 then Some(Csp)
    else if t == 0x4656C6F then Some(Role)
    else if t == 0x9737463 then Some(Redirects)
    else if t == 0xB736567 then Some(WidgetPages)
    else if t == 0xD6F666E then Some(UserAgentInfo)
    else if t == 0xE644970 then Some(InstallerAppId)
    else if t == 0x12726573 then Some(InstallerIsBrowser)
    else if t == 0x7644965 then Some(StoreId)
    else if t == 0xC6E6F69 then Some(StoreVersion)
    else if t == 0xB676E69 then Some(Downloading)
    else if t == 0x1464616F then Some(ReadyToApplyDownload)
    else if t == 0xA6E6F69 then Some(OldVersion)
    else if t == 0x13736567 then Some(AdditionalLanguages)
    else None
  }

  lemma TaggedTagOf(f: Field)
    ensures Tagged(TagOf(f)) == Some(f)
  {
  }

  /** The tag of each name, a third of the fields at a time so that each
      proof stays small. */
  lemma NameTagOfFirstThird(f: Field)
    requires f.Origin? || f.InstallOrigin? || f.ManifestURL? || f.AppStatus? || f.Receipts? ||
      f.Kind? || f.InstallTime? || f.InstallState? || f.Removable? || f.Id?
    ensures NameTag(FieldName(f)) == TagOf(f)
  {
  }

  lemma NameTagOfSecondThird(f: Field)
    requires f.BasePath? || f.LocalId? || f.Sideloaded? || f.Enabled? || f.BlockedStatus? ||
      f.Name? || f.Csp? || f.Role? || f.Redirects? || f.WidgetPages?
    ensures NameTag(FieldName(f)) == TagOf(f)
  {
  }

  lemma NameTagOfThirdThird(f: Field)
    requires f.UserAgentInfo? || f.InstallerAppId? || f.InstallerIsBrowser? || f.StoreId? ||
      f.StoreVersion? || f.Downloading? || f.ReadyToApplyDownload? || f.OldVersion? ||
      f.AdditionalLanguages?
    ensures NameTag(FieldName(f)) == TagOf(f)
  {
  }

  /** The same tag, read off the bytes of a key. */
  function KeyTag(k: Bytes): int {
    if |k| < 3 then |k| else ((|k| * 0x100 + k[|k| - 1]) * 0x100 + k[|k| - 2]) * 0x100 + k[|k| - 3]
  }

  lemma AsciiKeepsTag(s: string)
    ensures KeyTag(Ascii(s)) == NameTag(s)
  {
  }

  /** The field whose key `k` is, if any. */
  function FieldOf(k: Bytes): (r: Option<Field>)
    ensures r.Some? ==> Key(r.value) == k
  {
    match Tagged(KeyTag(k))
    case Some(f) => if Key(f) == k then Some(f) else None
    case None => None
  }

  /** A key whose tag names a field, and which is that field's key, reads
      back as that field. */
  lemma FieldOfTagged(k: Bytes, f: Field)
    requires Tagged(KeyTag(k)) == Some(f) && Key(f) == k
    ensures FieldOf(k) == Some(f)
  {
  }

  /** Every key reads back as its own field, so no two fields share a key. */
  lemma {:induction false} FieldOfKey(f: Field)
    ensures FieldOf(Key(f)) == Some(f)
  {
    if f.Origin? || f.InstallOrigin? || f.ManifestURL? || f.AppStatus? || f.Receipts? ||
      f.Kind? || f.InstallTime? || f.InstallState? || f.Removable? || f.Id? {
      NameTagOfFirstThird(f);
    } else if f.BasePath? || f.LocalId? || f.Sideloaded? || f.Enabled? || f.BlockedStatus? ||
      f.Name? || f.Csp? || f.Role? || f.Redirects? || f.WidgetPages? {
      NameTagOfSecondThird(f);
    } else {
      NameTagOfThirdThird(f);
    }
    AsciiKeepsTag(FieldName(f));
    TaggedTagOf(f);
    assert KeyTag(Key(f)) == TagOf(f);
    FieldOfTagged(Key(f), f);
  }

  /** The JSON value serde gives a field of `e`. */
  function FieldValue(e: AppItem, f: Field): Value {
    match f
    case Origin => Str(e.origin)
    case InstallOrigin => Str(e.installOrigin)
    case ManifestURL => Str(e.manifestURL)
    case AppStatus => Int(e.appStatus)
    case Receipts => Arr(Strs(e.receipts))
    case Kind => Str(e.kind)
    case InstallTime => Int(e.installTime)
    case InstallState => Str(e.installState)
    case Removable => Bool(e.removable)
    case Id => Str(e.id)
    case BasePath => Str(e.basePath)
    case LocalId => Int(e.localId)
    case Sideloaded => Bool(e.sideloaded)
    case Enabled => Bool(e.enabled)
    case BlockedStatus => Int(e.blockedStatus)
    case Name => Str(e.name)
    case Csp => Str(e.csp)
    case Role => Str(e.role)
    case Redirects => if e.redirects.Some? then Str(e.redirects.value) else Null
    case WidgetPages => Arr(Strs(e.widgetPages))
    case UserAgentInfo => Str(e.userAgentInfo)
    case InstallerAppId => Int(e.installerAppId)
    case InstallerIsBrowser => Bool(e.installerIsBrowser)
    case StoreId => Str(e.storeId)
    case StoreVersion => Int(e.storeVersion)
    case Downloading => Bool(e.downloading)
    case ReadyToApplyDownload => Bool(e.readyToApplyDownload)
    case OldVersion => Str(e.oldVersion)
    case AdditionalLanguages => Obj(map[])
  }

  function Strs(xs: seq<Bytes>): seq<Value> {
    seq(|xs|, i requires 0 <= i < |xs| => Str(xs[i]))
  }

  /** The keys of an entry's object: one per field. */
  function FieldKeys(): set<Bytes> {
    set f: Field :: Key(f)
  }

  /** `m` holds each field's value of `e` under the field's key, and no
      other key. */
  predicate IsObjectOf(e: AppItem, m: map<Bytes, Value>) {
    && m.Keys == FieldKeys()
    && (forall f: Field :: m[Key(f)] == FieldValue(e, f))
  }

  /** There is such an object ... */
  lemma ObjectExists(e: AppItem)
    ensures exists m :: IsObjectOf(e, m)
  {
    forall f: Field ensures FieldOf(Key(f)) == Some(f) {
      FieldOfKey(f);
    }
    var m := map k | k in FieldKeys() :: FieldValue(e, FieldOf(k).value);
    assert IsObjectOf(e, m);
  }

  /** ... and only one. */
  lemma ObjectUnique(e: AppItem)
    ensures forall m, m' :: IsObjectOf(e, m) && IsObjectOf(e, m') ==> m == m'
  {
    forall m, m' | IsObjectOf(e, m) && IsObjectOf(e, m') ensures m == m' {
      forall k | k in m ensures m[k] == m'[k] {
        var f: Field :| Key(f) == k;
      }
    }
  }

  /**
   * `serde_json::to_value` of an entry: a JSON object that holds each
   * field's value under the field's key and no other key. A u128 above
   * u64::MAX has no serde_json number, so an install time that large makes
   * the conversion fail.
   */
  function ToValue(e: AppItem): (r: Option<Value>)
    ensures r.Some? <==> e.installTime <= U64_MAX
    ensures r.Some? ==> r.value.Obj? && IsObjectOf(e, r.value.fields)
  {
    if e.installTime > U64_MAX then None
    else
      ObjectExists(e);
      ObjectUnique(e);
      var m :| IsObjectOf(e, m);
      Some(Obj(m))
  }

  /** The JSON a fresh install inserts: an object with every field key,
      holding the manifest's name and origin, the id, the allocated local
      id, and the packaged, installed state. */
  lemma ValueOfFreshEntry(m: Manifest, id: Bytes, localId: int, now: nat, v: Value)
    requires ToValue(BuildEntry(m, id, localId, now)) == Some(v)
    ensures v.Obj? && v.fields.Keys == FieldKeys()
    ensures v.fields[Key(Name)] == Str(m.name) && v.fields[Key(Origin)] == Str(m.origin)
    ensures v.fields[Key(Id)] == Str(id) && v.fields[Key(LocalId)] == Int(localId)
    ensures v.fields[Key(Kind)] == Str(PACKAGED) && v.fields[Key(InstallState)] == Str(INSTALLED)
  {
    assert IsObjectOf(BuildEntry(m, id, localId, now), v.fields);
  }
}

=== FILE: resolver.dfy ===
/**
 * The identity resolver: the app id derived from the manifest origin, the
 * duplicate check against the registry, the local id allocation, and the
 * registry as it stands once the new entry is inserted.
 */
module Resolver {
  import opened Wrappers
  import opened Errors
  import opened Text
  import opened Json
  import opened Records

  /** The decoded registry file: app id to registry entry. */
  type Registry = map<Bytes, Value>

  /** Length of the `app://` scheme the id derivation cuts off. */
  const SCHEME_LENGTH: nat := 6

  /** `&manifest.origin[6..]`: the origin less its first six bytes. */
  function AppId(origin: Bytes): (r: Result<Bytes, Error>)
    ensures r.Ok? <==> |origin| >= SCHEME_LENGTH && IsCharBoundary(origin, SCHEME_LENGTH)
    ensures r.Ok? ==> origin == origin[..SCHEME_LENGTH] + r.value
    ensures r.Err? ==> r.error == BadOrigin
  {
    match SliceFrom(origin, SCHEME_LENGTH)
    case None => Err(BadOrigin)
    case Some(id) => Ok(id)
  }

  /** An `app://` origin yields the rest of the origin as the id. */
  lemma AppIdOfAppOrigin(rest: Bytes)
    requires rest == [] || !IsContinuation(rest[0])
    ensures AppId(Ascii("app://") + rest) == Ok(rest)
  {
  }

  /** The local id of a registry value: `v.as_object()` and then
      `obj["localId"].as_i64()`; None where either of them would panic. */
  function LocalIdOf(v: Value): (r: Option<int>)
    ensures r.Some? <==> v.Obj? && LOCAL_ID_KEY in v.fields && AsI64(v.fields[LOCAL_ID_KEY]).Some?
    ensures r.Some? ==> I64_MIN <= r.value <= I64_MAX && v.fields[LOCAL_ID_KEY] == Int(r.value)
  {
    match v
    case Obj(fields) => if LOCAL_ID_KEY in fields then AsI64(fields[LOCAL_ID_KEY]) else None
    case _ => None
  }

  /** The local id of an entry reads back from its JSON value. */
  lemma LocalIdOfEntry(e: AppItem)
    requires e.installTime <= U64_MAX && I64_MIN <= e.localId <= I64_MAX
    ensures LocalIdOf(ToValue(e).value) == Some(e.localId)
  {
    assert ToValue(e).value.fields[Key(LocalId)] == FieldValue(e, LocalId);
  }

  /** Every entry of the registry has a readable local id. */
  predicate WellFormed(reg: Registry) {
    forall k :: k in reg ==> LocalIdOf(reg[k]).Some?
  }

  /** `m` is the largest local id of the entries `keys`, or 1 if that is larger. */
  ghost predicate IsFloorMax(reg: Registry, keys: set<Bytes>, m: int)
    requires keys <= reg.Keys
  {
    && m >= 1
    && (forall k :: k in keys ==> LocalIdOf(reg[k]).Some? && LocalIdOf(reg[k]).value <= m)
    && (m == 1 || exists k :: k in keys && LocalIdOf(reg[k]) == Some(m))
  }

  function Max(a: int, b: int): int {
    if a < b then b else a
  }

  /** The local ids of `keys` folded with Max, starting from 1. */
  ghost function MaxFrom(reg: Registry, keys: set<Bytes>): int
    requires keys <= reg.Keys && WellFormed(reg)
    decreases keys
  {
    if keys == {} then 1
    else
      var k :| k in keys;
      Max(LocalIdOf(reg[k]).value, MaxFrom(reg, keys - {k}))
  }

  /** `max(1, largest local id in the registry)`. */
  ghost function FloorMax(reg: Registry): int
    requires WellFormed(reg)
  {
    MaxFrom(reg, reg.Keys)
  }

  /** The fold computes the maximum, whichever order it visits the keys in. */
  lemma {:induction false} MaxFromIsFloorMax(reg: Registry, keys: set<Bytes>)
    requires keys <= reg.Keys && WellFormed(reg)
    ensures IsFloorMax(reg, keys, MaxFrom(reg, keys))
    decreases keys
  {
    if keys != {} {
      var k :| k in keys && MaxFrom(reg, keys) == Max(LocalIdOf(reg[k]).value, MaxFrom(reg, keys - {k}));
      var rest := MaxFrom(reg, keys - {k});
      MaxFromIsFloorMax(reg, keys - {k});
      var m := MaxFrom(reg, keys);
      assert m == Max(LocalIdOf(reg[k]).value, rest);
      assert m >= rest && m >= LocalIdOf(reg[k]).value;
      forall j | j in keys
        ensures LocalIdOf(reg[j]).Some? && LocalIdOf(reg[j]).value <= m
      {
        if j != k {
          assert j in keys - {k};
        }
      }
      if m != 1 {
        if m == LocalIdOf(reg[k]).value {
          assert LocalIdOf(reg[k]) == Some(m);
        } else {
          assert m == rest != 1;
          var j :| j in keys - {k} && LocalIdOf(reg[j]) == Some(rest);
          assert j in keys;
        }
      }
    }
  }

  /** The maximum is unique. */
  lemma FloorMaxUnique(reg: Registry, keys: set<Bytes>, m: int, n: int)
    requires keys <= reg.Keys && IsFloorMax(reg, keys, m) && IsFloorMax(reg, keys, n)
    ensures m == n
  {
  }

  /** The registry's floor maximum, characterised without the fold. */
  lemma FloorMaxOf(reg: Registry)
    requires WellFormed(reg)
    ensures IsFloorMax(reg, reg.Keys, FloorMax(reg))
    ensures 1 <= FloorMax(reg) <= I64_MAX
  {
    MaxFromIsFloorMax(reg, reg.Keys);
  }

  /**
   * The allocation loop: walks every registry entry, failing on the first
   * one without a readable local id, and keeps the largest local id seen,
   * starting from 1.
   */
  method MaxLocalId(reg: Registry) returns (r: Result<int, Error>)
    ensures r.Ok? <==> WellFormed(reg)
    ensures r.Err? ==> r.error == MalformedEntry
    ensures r.Ok? ==> IsFloorMax(reg, reg.Keys, r.value) && r.value == FloorMax(reg)
  {
    var maxLocalId := 1;
    var todo := reg.Keys;
    while todo != {}
      invariant todo <= reg.Keys
      invariant IsFloorMax(reg, reg.Keys - todo, maxLocalId)
      decreases todo
    {
      var k :| k in todo;
      match LocalIdOf(reg[k]) {
        case None =>
          return Err(MalformedEntry);
        case Some(localId) =>
          if localId > maxLocalId {
            maxLocalId := localId;
          }
      }
      todo := todo - {k};
    }
    FloorMaxOf(reg);
    FloorMaxUnique(reg, reg.Keys, maxLocalId, FloorMax(reg));
    return Ok(maxLocalId);
  }

  /** What the resolver decides for a new app: its registry entry and the
      registry with that entry inserted. */
  datatype Admission = Admission(entry: AppItem, registry: Registry)

  /**
   * The resolver's decision, from the duplicate check to the insertion into
   * the registry: an app whose id is already a key is refused, and so is
   * one whose registry holds an entry without a readable local id.
   */
  ghost function Admit(id: Bytes, m: Manifest, reg: Registry, now: nat): (r: Result<Admission, Error>)
    ensures id in reg ==> r == Err(AlreadyInstalled)
    ensures id !in reg && !WellFormed(reg) ==> r == Err(MalformedEntry)
    ensures r.Ok? <==> id !in reg && WellFormed(reg) && FloorMax(reg) < I64_MAX && now <= U64_MAX
    ensures r.Err? ==> r.error in {AlreadyInstalled, MalformedEntry, LocalIdOverflow, EntryNotSerialisable}
  {
    if id in reg then Err(AlreadyInstalled)
    else if !WellFormed(reg) then Err(MalformedEntry)
    else
      FloorMaxOf(reg);
      var maxLocalId := FloorMax(reg);
      if maxLocalId == I64_MAX then Err(LocalIdOverflow)
      else
        var entry := BuildEntry(m, id, maxLocalId + 1, now);
        match ToValue(entry)
        case None => Err(EntryNotSerialisable)
        case Some(v) => Ok(Admission(entry, reg[id := v]))
  }

  /** An admitted app's entry is built from its manifest, and the registry
      gains exactly one key, the id, holding that entry as JSON; every old
      key keeps its value. */
  lemma AdmitInserts(id: Bytes, m: Manifest, reg: Registry, now: nat)
    requires Admit(id, m, reg, now).Ok?
    ensures var a := Admit(id, m, reg, now).value;
            && a.entry == BuildEntry(m, id, a.entry.localId, now)
            && a.registry.Keys == reg.Keys + {id} && |a.registry| == |reg| + 1
            && (forall k :: k in reg ==> a.registry[k] == reg[k])
            && Some(a.registry[id]) == ToValue(a.entry)
  {
  }

  /** An admitted app gets local id `max(1, largest local id) + 1`, above
      every old one and at least 2; it reads back from the inserted JSON,
      and the registry stays well formed. */
  lemma AdmitAllocates(id: Bytes, m: Manifest, reg: Registry, now: nat)
    requires Admit(id, m, reg, now).Ok?
    ensures WellFormed(reg)
    ensures var a := Admit(id, m, reg, now).value;
            && a.entry.localId == FloorMax(reg) + 1 && a.entry.localId >= 2
            && (forall k :: k in reg ==> LocalIdOf(reg[k]).value < a.entry.localId)
            && LocalIdOf(a.registry[id]) == Some(a.entry.localId)
            && WellFormed(a.registry)
  {
    FloorMaxOf(reg);
    var a := Admit(id, m, reg, now).value;
    LocalIdOfEntry(a.entry);
  }

  /** The value `Admit` takes when every check passes. */
  lemma AdmitAccepts(id: Bytes, m: Manifest, reg: Registry, now: nat, maxLocalId: int)
    requires id !in reg && WellFormed(reg) && maxLocalId == FloorMax(reg) < I64_MAX && now <= U64_MAX
    ensures var entry := BuildEntry(m, id, maxLocalId + 1, now);
      Admit(id, m, reg, now) == Ok(Admission(entry, reg[id := ToValue(entry).value]))
  {
  }

  /** The first app installed into an empty registry gets local id 2. */
  lemma FirstLocalIdIsTwo(id: Bytes, m: Manifest, now: nat)
    requires now <= U64_MAX
    ensures Admit(id, m, map[], now).Ok?
    ensures Admit(id, m, map[], now).value.entry.localId == 2
    ensures Admit(id, m, map[], now).value.registry.Keys == {id}
  {
    AdmitInserts(id, m, map[], now);
    AdmitAllocates(id, m, map[], now);
  }

  /** Back-to-back installs get consecutive local ids: the entry the first
      one inserted holds the registry's new maximum. */
  lemma SuccessiveLocalIds(reg: Registry, id1: Bytes, m1: Manifest, now1: nat,
                           id2: Bytes, m2: Manifest, now2: nat)
    requires Admit(id1, m1, reg, now1).Ok?
    requires Admit(id2, m2, Admit(id1, m1, reg, now1).value.registry, now2).Ok?
    ensures Admit(id2, m2, Admit(id1, m1, reg, now1).value.registry, now2).value.entry.localId
         == Admit(id1, m1, reg, now1).value.entry.localId + 1
  {
    var a := Admit(id1, m1, reg, now1).value;
    var next := a.registry;
    var l := a.entry.localId;
    AdmitInserts(id1, m1, reg, now1);
    AdmitAllocates(id1, m1, reg, now1);
    AdmitAllocates(id2, m2, next, now2);
    assert LocalIdOf(next[id1]) == Some(l);
    forall k | k in next.Keys
      ensures LocalIdOf(next[k]).Some? && LocalIdOf(next[k]).value <= l
    {
      if k != id1 {
        assert k in reg;
      }
    }
    assert IsFloorMax(next, next.Keys, l);
    FloorMaxOf(next);
    FloorMaxUnique(next, next.Keys, l, FloorMax(next));
  }

  /** No two entries share a local id. */
  ghost predicate LocalIdsDistinct(reg: Registry) {
    forall j, k :: j in reg && k in reg && j != k ==> LocalIdOf(reg[j]) != LocalIdOf(reg[k])
  }

  /** Installing keeps local ids distinct. */
  lemma AdmitKeepsLocalIdsDistinct(id: Bytes, m: Manifest, reg: Registry, now: nat)
    requires Admit(id, m, reg, now).Ok?
    requires LocalIdsDistinct(reg)
    ensures LocalIdsDistinct(Admit(id, m, reg, now).value.registry)
  {
    AdmitInserts(id, m, reg, now);
    AdmitAllocates(id, m, reg, now);
  }
}

=== FILE: storage.dfy ===
/**
 * The part of the device's filesystem the installer touches. Each write the
 * program makes (`File::create` + `write`, `fs::create_dir`, `fs::copy`,
 * `fs::write`) is a method that either takes effect, and is appended to the
 * effect log, or fails and changes nothing.
 */
module Storage {
  import opened Wrappers
  import opened Text
  import opened Layout

  /** One filesystem effect, in the order the installer performs them. */
  datatype Effect =
    | CreateDir(dir: Path)
    | CopyFile(from: Path, to: Path)
    | WriteFile(file: Path, data: Bytes)
  {
    /** The path the effect creates or overwrites. */
    function Target(): Path {
      match this
      case CreateDir(dir) => dir
      case CopyFile(_, to) => to
      case WriteFile(file, _) => file
    }
  }

  class FileSystem {
    /** Existing directories. */
    var dirs: set<Path>
    /** Existing regular files and their contents. */
    var files: map<Path, Bytes>
    /** Paths the operating system refuses to create or write (permissions,
        read-only or full storage); it stands in for every I/O failure. */
    const denied: set<Path>
    /** Every effect that took place, oldest first. */
    var log: seq<Effect>

    /** A path is a directory or a file, never both. */
    ghost predicate Valid()
      reads this
    {
      dirs !! files.Keys
    }

    /** Whether creating or overwriting the file `p` would succeed. */
    predicate Writable(p: Path)
      reads this
    {
      p !in dirs && p !in denied
    }

    /** The contents of file `p`, or None when `fs::read` would fail. */
    function Read(p: Path): (r: Option<Bytes>)
      reads this
      ensures r.Some? <==> p in files
      ensures r.Some? ==> r.value == files[p]
    {
      if p in files then Some(files[p]) else None
    }

    constructor (dirs: set<Path>, files: map<Path, Bytes>, denied: set<Path>)
      requires dirs !! files.Keys
      ensures Valid()
      ensures this.dirs == dirs && this.files == files && this.denied == denied && log == []
    {
      this.dirs := dirs;
      this.files := files;
      this.denied := denied;
      log := [];
    }

    /** `fs::create_dir`: fails when anything already exists at `dir`. */
    method CreateDirectory(dir: Path) returns (ok: bool)
      requires Valid()
      modifies this
      ensures Valid()
      ensures ok <==> dir !in old(dirs) && dir !in old(files) && dir !in denied
      ensures dirs == if ok then old(dirs) + {dir} else old(dirs)
      ensures files == old(files)
      ensures log == if ok then old(log) + [CreateDir(dir)] else old(log)
    {
      ok := dir !in dirs && dir !in files && dir !in denied;
      if ok {
        dirs := dirs + {dir};
        log := log + [CreateDir(dir)];
      }
    }

    /** `fs::copy`: the target file gets the source file's contents. */
    method Copy(from: Path, to: Path) returns (ok: bool)
      requires Valid()
      modifies this
      ensures Valid()
      ensures ok <==> from in old(files) && old(Writable(to))
      ensures files == if ok then old(files)[to := old(files)[from]] else old(files)
      ensures dirs == old(dirs)
      ensures log == if ok then old(log) + [CopyFile(from, to)] else old(log)
    {
      ok := from in files && Writable(to);
      if ok {
        files := files[to := files[from]];
        log := log + [CopyFile(from, to)];
      }
    }

    /** `fs::write` (and `File::create` followed by a full write): the file
        is created or truncated and then holds exactly `data`. */
    method Write(file: Path, data: Bytes) returns (ok: bool)
      requires Valid()
      modifies this
      ensures Valid()
      ensures ok <==> old(Writable(file))
      ensures files == if ok then old(files)[file := data] else old(files)
      ensures dirs == old(dirs)
      ensures log == if ok then old(log) + [WriteFile(file, data)] else old(log)
    {
      ok := Writable(file);
      if ok {
        files := files[file := data];
        log := log + [WriteFile(file, data)];
      }
    }
  }
}

=== FILE: text.dfy ===
/**
 * Byte strings. Rust's `String` and `&str` are UTF-8 byte sequences, and the
 * program slices them by byte offset, so text is modelled as bytes.
 */
module Text {
  import opened Wrappers

  type byte = b: int | 0 <= b < 256

  type Bytes = seq<byte>

  /** The byte of an ASCII character; the model never meets any other. */
  function ByteOf(c: char): byte {
    if c as int < 256 then c as int else 0
  }

  /** The bytes of a string literal; every literal the program uses is ASCII. */
  function Ascii(s: string): (r: Bytes)
    ensures |r| == |s|
    ensures forall i :: 0 <= i < |s| ==> r[i] == ByteOf(s[i])
  {
    seq(|s|, i requires 0 <= i < |s| => ByteOf(s[i]))
  }

  /** A UTF-8 continuation byte (0b10xx_xxxx) never begins a character. */
  predicate IsContinuation(b: byte) {
    0x80 <= b < 0xC0
  }

  /** A byte reinterpreted as Rust's `i8`. */
  function AsI8(b: byte): (r: int)
    ensures -128 <= r < 128 && (r - b) % 256 == 0
  {
    if b < 128 then b else b - 256
  }

  /** Rust's `str::is_char_boundary`: offset 0 and the end always are; an
      offset inside is one unless it falls on a continuation byte. */
  function IsCharBoundary(s: Bytes, i: nat): (b: bool)
    // the standard library's own test: zero, the length, or a byte that
    // read as `i8` is at least -0x40
    ensures b <==> i == 0 || (if i >= |s| then i == |s| else AsI8(s[i]) >= -0x40)
  {
    i == 0 || i == |s| || (i < |s| && !IsContinuation(s[i]))
  }

  /** Rust's `&s[i..]`, which panics (here: None) when `i` is past the end of
      `s` or not on a character boundary. */
  function SliceFrom(s: Bytes, i: nat): (r: Option<Bytes>)
    ensures r.Some? <==> i <= |s| && IsCharBoundary(s, i)
    ensures r.Some? ==> |r.value| == |s| - i && s == s[..i] + r.value
  {
    if i <= |s| && IsCharBoundary(s, i) then Some(s[i..]) else None
  }

  /** Two byte strings whose last bytes differ are different. */
  lemma LastByteDiffers(a: Bytes, b: Bytes)
    requires |a| > 0 && |b| > 0 && a[|a| - 1] != b[|b| - 1]
    ensures a != b
  {
  }
}

=== FILE: wrappers.dfy ===
/** Option and Result, with the members that let `:-` propagate a failure. */
module Wrappers {

  datatype Option<+T> = None | Some(value: T) {

    predicate IsFailure() {
      None?
    }

    function PropagateFailure<U>(): Option<U>
      requires None?
    {
      None
    }

    function Extract(): T
      requires Some?
    {
      value
    }
  }

  datatype Result<+T, +E> = Ok(value: T) | Err(error: E) {

    predicate IsFailure() {
      Err?
    }

    function PropagateFailure<U>(): Result<U, E>
      requires Err?
    {
      Err(error)
    }

    function Extract(): T
      requires Ok?
    {
      value
    }
  }
}

=== FILE: zip.dfy ===
/**
 * Archives and `check_app`, which looks one level into the uploaded archive
 * for the real application payload.
 */
module Zip {
  import opened Wrappers
  import opened Errors
  import opened Text
  import opened Layout
  import opened Storage

  /** A zip archive as the installer sees it: entry name to entry bytes.
      The container format itself is not modelled. */
  datatype Archive = Archive(entries: map<Bytes, Bytes>)

  /** The archive carries its payload one level deeper, as `application.zip`. */
  predicate IsNested(zip: Archive) {
    PAYLOAD_NAME in zip.entries
  }

  /** What `check_app` hands back: the archive to read the manifest from and
      the path of the file to install as the payload. */
  function Normalize(zip: Archive, zipPath: Path, scratchWritable: bool,
                     open: Bytes -> Option<Archive>): (r: Result<(Archive, Path), Error>)
    ensures !IsNested(zip) ==> r == Ok((zip, zipPath))
    ensures IsNested(zip) ==> (r.Ok? <==> scratchWritable && open(zip.entries[PAYLOAD_NAME]).Some?)
    ensures IsNested(zip) && r.Ok? ==> r.value.1 == SCRATCH_PATH && open(zip.entries[PAYLOAD_NAME]) == Some(r.value.0)
    ensures r.Err? ==> r.error == if !scratchWritable then ScratchNotWritten else InnerArchiveUnreadable
  {
    if !IsNested(zip) then Ok((zip, zipPath))
    else if !scratchWritable then Err(ScratchNotWritten)
    else match open(zip.entries[PAYLOAD_NAME])
      case None => Err(InnerArchiveUnreadable)
      case Some(inner) => Ok((inner, SCRATCH_PATH))
  }

  /** The effects `check_app` has: writing the scratch file, when it unwraps. */
  function ScratchLog(zip: Archive, scratchWritable: bool): seq<Effect> {
    if IsNested(zip) && scratchWritable then [WriteFile(SCRATCH_PATH, zip.entries[PAYLOAD_NAME])] else []
  }

  /**
   * `check_app`: when the archive has an `application.zip` entry, its bytes
   * are written to the scratch file, which is reopened as the archive to
   * install; otherwise the archive and its path come back unchanged.
   * `open` is the zip reader (`ZipArchive::new`).
   */
  method CheckApp(fs: FileSystem, zip: Archive, zipPath: Path, open: Bytes -> Option<Archive>)
    returns (r: Result<(Archive, Path), Error>)
    requires fs.Valid()
    modifies fs
    ensures fs.Valid()
    ensures r == Normalize(zip, zipPath, old(fs.Writable(SCRATCH_PATH)), open)
    ensures !IsNested(zip) ==> r == Ok((zip, zipPath)) && unchanged(fs)
    ensures r.Ok? && IsNested(zip) ==> r.value.1 == SCRATCH_PATH && SCRATCH_PATH in fs.files
                                       && Some(r.value.0) == open(fs.files[SCRATCH_PATH])
    ensures fs.dirs == old(fs.dirs)
    ensures fs.log == old(fs.log) + ScratchLog(zip, old(fs.Writable(SCRATCH_PATH)))
    ensures fs.files == if ScratchLog(zip, old(fs.Writable(SCRATCH_PATH))) == [] then old(fs.files)
                        else old(fs.files)[SCRATCH_PATH := zip.entries[PAYLOAD_NAME]]
  {
    if PAYLOAD_NAME in zip.entries {
      var buf := zip.entries[PAYLOAD_NAME];
      var written := fs.Write(SCRATCH_PATH, buf);
      if !written {
        return Err(ScratchNotWritten);
      }
      var reopened := fs.files[SCRATCH_PATH];
      match open(reopened) {
        case None =>
          return Err(InnerArchiveUnreadable);
        case Some(inner) =>
          return Ok((inner, SCRATCH_PATH));
      }
    }
    return Ok((zip, zipPath));
  }
}
